=== FILE: README.md ===
# Auction bidding rules in Dafny

This project models the core of a small auction site: the rules that decide
whether a bid is accepted, how accepting a bid changes a listing, how an
auction is closed, and the validators that guard the text of a new listing.
Every operation is a pure function over immutable values:

- `Money` holds amounts as whole cents. The site stores them as two-decimal
  fixed-point numbers. The module also renders a price the way rejection
  messages print it.
- `Rejections` lists the reasons a bid is refused, with the site's message
  for each.
- `Ledger` covers a listing and its bids (`Listing` in auctions/models.py):
  - the price default applied on save;
  - the two current-price accessors, which treat zero differently;
  - the highest bid;
  - the active test;
  - `can_user_bid`, the ordered eligibility check;
  - `close_auction`.
- `BidRecord` is the persistence-level bid rule (`Bid.clean`, `Bid.save`).
  Its minimum raise is 3.00.
- `Views` covers the three request handlers that change state: `place_bid`,
  `close_auction` and `delete_listing`. A `Market` maps listing ids to
  listings. A listing owns its bids, so deleting it removes them too.
- `Forms` holds the form cleaners. `BidForm.clean_amount` has its own 1.00
  minimum raise and also consults the end date through `can_user_bid`. The
  others are the length bounds on titles, descriptions and category names.
- `TitleValidator` is `validate_listing_title`:
  - it strips the title first;
  - then it checks the length bounds and the allowed character class;
  - then it counts all-capital words, following `re.findall` semantics;
  - then it looks for runs of four identical characters and for web
    addresses.
- `AuctionProperties` states facts that span operations. `Sound` is the
  ledger invariant, and every state-changing request keeps it. Bids only
  grow and the price rises by at least 3.00 per accepted bid. The current
  price is always the last and highest bid, and closing awards the last
  bidder. The module also has a worked example and lemmas that show where
  the bid form's rule (`clean_amount`) and `place_bid`'s rule disagree. No
  request runs the form, so these compare two rules, not two routes.

The model follows the code as written, including these choices:

- There are two minimum increments, 1.00 in the form and 3.00 in the bid
  record. Both are kept as written.
- `place_bid` tests only the `is_active` flag and never the end date. See
  `ExpiredAuctionStillTakesBids`.
- Closing an auction that has no bids changes nothing. The listing stays
  active. See `Ledger.CloseAuction`.
- Nothing locks a listing between validation and writing.
- `BidForm` is imported by the views but never built, so `clean_amount`,
  `can_user_bid` and the end date are on no request path. The divergence
  lemmas compare the two rules, not two live routes.

Inputs that come from outside are parameters:
- the current time is `now`;
- the logged-in user is a `Principal`, either `Anonymous` or `Member(id)`;
- a bid amount the site could not parse as a decimal is `None`.

## Model

| member | source | states |
|---|---|---|
| Money.FormatRoundTrip | auctions/models.py:123-132 | The two-decimal price printed into a rejection message reads back to exactly that price, so distinct prices never produce the same message. |
| Money.FormatInjective | auctions/models.py:123-132 | Two prices that render to the same text are equal. |
| Rejections.Message | auctions/models.py:84-90 | Every refusal message is non-empty, so it never looks like the empty message of an allowed bid. |
| Ledger.Save | auctions/models.py:51-55 | Saving always leaves a current price. A missing or zero price becomes the starting price, a non-zero one is kept, and no other field changes. A saved price is zero only when the starting price is zero. |
| Ledger.SaveKeepsDisplayedPrice | auctions/models.py:51-66 | Saving never changes the price `get_current_price` reports. After saving, both accessors agree. Saving twice is the same as saving once. |
| Ledger.PriceAccessorsAgree | auctions/models.py:57-66 | `get_current_price_safe` and `get_current_price` differ exactly when the recorded price is zero and the starting price is not. |
| Ledger.GetCurrentPriceSafe | auctions/models.py:57-59 | A recorded price is reported whenever one is present, even when it is zero. Only a missing price falls back to the starting price. |
| Ledger.GetCurrentPrice | auctions/models.py:64-66 | A recorded non-zero price is reported as it is. A missing or zero price reports the starting price instead. |
| Ledger.HighestBid | auctions/models.py:68-70 | There is no highest bid exactly when there are no bids. Otherwise the result is one of the listing's bids, and no bid is higher. |
| Ledger.IsAuctionActive | auctions/models.py:76-80 | An auction is never active when its flag is off. With an end date, it is active only strictly before that date. |
| Ledger.ExpiryIsPermanent | auctions/models.py:76-80 | Once an auction is not active at some instant, it is not active at any later instant. |
| Ledger.BidBarrier | auctions/models.py:82-90 | There is no barrier exactly when the user is logged in, is not the owner, and the auction is active. Login is checked before ownership, and ownership before activity. A logged-in non-owner on an inactive auction is stopped for inactivity. |
| Ledger.CanUserBid | auctions/models.py:82-90 | The result is `(True, "")` exactly when all three checks pass. Otherwise it is `False` with the message of the first failing check. |
| Ledger.CloseAuction | auctions/models.py:92-100 | With bids, the winner becomes the bidder of a highest bid, the listing is deactivated and saved (a missing or zero price becomes the starting price), and that winner is returned. With no bids, nothing changes and no winner is returned. Bids, owner and displayed price are kept. |
| Ledger.CloseAuctionIdempotent | auctions/models.py:92-100 | Closing an auction a second time changes nothing and returns the same winner. |
| BidRecord.BidClean | auctions/models.py:111-135 | A bid passes exactly when it is positive, at least 3.00 above the current price (`None` means the starting price), and not from the owner. Each refusal names the first failing check: positive, above the price, the increment, then the owner. |
| BidRecord.BidSave | auctions/models.py:137-139 | A bid is stored only when its validation passes, and then only appended. A refusal carries the validation's reason. |
| BidRecord.OwnerLowBidRefusedForPrice | auctions/models.py:111-135 | An owner's bid that is too low is refused for its price, not for its bidder. |
| Views.PlaceBid | auctions/views.py:236-270 | A non-positive amount, an owner's bid, an inactive flag, an amount not above the price, or a raise under 3.00 is refused, in that order, with the listing unchanged. The last refusal comes from the bid record and names the price. A bid is placed exactly when it is positive, not from the owner, on an active listing, and at least 3.00 above the price. Placing appends exactly that bid and makes its amount the price, which rises by at least 3.00. |
| Views.PlaceBidRecordCheckIsIncrementOnly | auctions/views.py:236-266 | Once the handler's own checks pass, the bid record can refuse only for the 3.00 increment. |
| Views.PlaceBidRequest | auctions/views.py:225-284 | An anonymous user is sent to log in. An unknown listing is not found. An unparseable amount is refused. None of these change anything. Otherwise the response carries `place_bid`'s outcome on that listing: a valid bid is placed, and a refusal carries `place_bid`'s reason. A placed bid changes only the target listing, and no listing appears or disappears. |
| Views.CloseAuctionRequest | auctions/views.py:286-301 | A non-owner is forbidden and nothing changes. For the owner, the listing is closed as `close_auction` does it. No other listing changes. |
| Views.DeleteListingRequest | auctions/views.py:56-73 | Deletion happens exactly when the owner asks. The listing is then removed, and its bids go with it. Anyone else changes nothing. Other listings are never touched. |
| Forms.CleanAmount | auctions/forms.py:75-104 | Without a listing or a user, the amount is returned unchecked. Otherwise the amount is accepted exactly when it is positive, `can_user_bid` allows it, and it is at least 1.00 above `get_current_price`. Refusals come in source order, and an eligibility refusal carries `can_user_bid`'s message. A raise under 1.00 is refused with the increment message. An accepted amount is returned unchanged. |
| Forms.CleanTitle | auctions/forms.py:17-23 | A title is accepted exactly when it has 3 to 200 characters, and is returned unchanged. |
| Forms.CleanDescription | auctions/forms.py:31-35 | A description is accepted exactly when it has at most 512 characters, and is returned unchanged. |
| Forms.CleanName | auctions/forms.py:46-52 | A category name is accepted exactly when it has 3 to 64 characters, and is returned unchanged. |
| TitleValidator.StripRemovesBorder | auctions/validators.py:8 | Stripping any whitespace border from a text with no border whitespace gives back exactly that text. |
| TitleValidator.StripIdempotent | auctions/validators.py:8 | Stripping twice is the same as stripping once. |
| TitleValidator.ShoutsFromCountsMatches | auctions/validators.py:24-26 | The `findall` scan counts exactly the positions where `\b[A-Z]{3,}\b` matches. |
| TitleValidator.ShoutCountCountsMatches | auctions/validators.py:24-26 | The number of shouted words in a title is the number of positions where the pattern matches. |
| TitleValidator.CheckStripped | auctions/validators.py:10-36 | The checks run in source order and the first failure decides the error: too short, too long, disallowed characters, more than two shouted words, a run of four equal characters, then a web-address marker. A text that passes comes back unchanged. |
| TitleValidator.ErrorMessage | auctions/validators.py:11-34 | Every error the validator raises has a non-empty message. The texts are the source's. |
| TitleValidator.ValidateListingTitle | auctions/validators.py:4-36 | A title is accepted exactly when its stripped form passes every check: length 3..200, allowed characters only, at most two words of three or more capitals, no run of four equal characters, no web-address marker in any case. An accepted title comes back stripped, with no whitespace at either end. |
| TitleValidator.RevalidationAccepts | auctions/validators.py:8-36 | Validating an accepted title again accepts it and returns the same string. |
| AuctionProperties.NewListing | auctions/views.py:40-42 | A newly created listing is active, has no bids and no winner, shows its starting price, and satisfies the ledger invariant. |
| AuctionProperties.SoundHighestIsLast | auctions/models.py:68-70 | In a listing that keeps the invariant, the last bid is the one and only highest bid, and its amount is the current price. |
| AuctionProperties.PlaceBidPreservesSound | auctions/views.py:249-270 | Placing a bid keeps the invariant: positive non-owner bids, each at least 3.00 above all earlier ones, with the price equal to the last bid. |
| AuctionProperties.CloseAuctionPreservesSound | auctions/models.py:92-100 | Closing keeps the invariant: a listing has a winner exactly when it is inactive, and the winner is the last bidder. |
| AuctionProperties.CloseAwardsLastBidder | auctions/models.py:92-99 | Closing a listing that has bids and keeps the invariant makes its last bidder the winner and deactivates it. |
| AuctionProperties.PlaceBidRequestKeepsListingsSound | auctions/views.py:225-284 | After a bid request of any kind, placed or refused, every listing of a sound market is still sound. |
| AuctionProperties.CloseAuctionRequestKeepsListingsSound | auctions/views.py:286-301 | After a close request, by the owner or anyone else, every listing of a sound market is still sound. |
| AuctionProperties.DeleteListingRequestKeepsListingsSound | auctions/views.py:56-73 | After a delete request, every remaining listing of a sound market is still sound. |
| AuctionProperties.RunBidsAppendsAndRaises | auctions/views.py:258-270 | Over any run of bid attempts, earlier bids stay as they are and each accepted attempt adds one bid. The price rises by at least 3.00 per accepted attempt, and a sound listing stays sound. |
| AuctionProperties.BiddingScenario | auctions/views.py:236-270 | The worked example. From 100.00, a bid of 150.00 is placed. Then 120.00 is refused for its price and 150.50 for the increment. The owner is refused at any amount. A bid of 153.00 is placed, and closing awards it. |
| AuctionProperties.ExpiredAuctionStillTakesBids | auctions/views.py:244-246 | Past its end date, an active-flagged listing still takes a valid bid through `place_bid`. The bid form's `clean_amount`, which no request runs, would refuse the same bid as no longer active. |
| AuctionProperties.FormIncrementIsWeaker | auctions/forms.py:98-104 | A raise of at least 1.00 but under 3.00 passes the bid form's rule, and `place_bid` refuses it for the 3.00 increment. Only the 3.00 rule is on a request path. |
| AuctionProperties.ZeroPriceSplitsThePaths | auctions/forms.py:91-95 | With a recorded price of zero, the form measures a bid against the starting price and `place_bid` measures it against zero. `Listing.save` never leaves a zero over a non-zero starting price, so only a row written without `save()` reaches this state. |
| AuctionProperties.FormAcceptanceBound | auctions/forms.py:91-104 | An amount the form accepts is at least 1.00 above `get_current_price`. Unless the recorded price is zero, it is also at least 1.00 above the price `Bid.clean` uses. |
| AuctionProperties.LengthMessagesAgree | auctions/validators.py:11-15 | A stripped title that is too short or too long is refused by both the validator and the form's title cleaner, with the same message. |
| AuctionProperties.ValidatedTitleFitsForm | auctions/forms.py:17-23 | Every title the model validator accepts also passes the form's length check unchanged. |

## Left out

- Persistence is out. The ORM, primary keys, `full_clean`'s field-level
  checks (digit counts, decimal places, the 64-character `max_length` of
  `Listing.title`), uniqueness checks and storage failures are not modelled.
  The bid insert and the listing save in `place_bid` are one step here. In
  the source they are two writes, with no transaction or lock around them.
- Concurrency is out. The source has no locking, so requests are modelled
  one at a time.
- Decimal parsing is out. The amount is given as parsed cents, or `None`
  when unparseable. `NaN`, infinities and amounts with more than two
  decimals are not represented.
- Rendering is out: flash messages, redirects, templates and pagination.
  The `request.method` and `require_POST` tests are out too. Refusal
  messages are kept as text.
- Login, logout and registration are out, as are the watchlist views and
  the category and listing creation views. Only their form cleaners and the
  creation step itself (`NewListing`) are modelled.
- `get_bid_count`, `__str__` and URL routing are out. None of them decides
  anything.
- `BidForm.__init__` is out. It only sets an HTML `min` attribute from a
  float.
- `ListingForm.clean_price` is out. It reads a field the form does not
  have, so it is never reached.
- Image upload is out.
- TitleValidator.ValidateListingTitle: the `\w` class is restricted to ASCII
  letters, digits and underscore. Python's Unicode `\w` also accepts
  non-ASCII letters and digits, so the model refuses some titles as having
  disallowed characters that the source accepts. `\s` and `strip()` use
  Python's full whitespace set.
- Ledger.HighestBid: among equal amounts the model takes the earliest bid.
  The source leaves this choice to the database.
  `Ledger.CloseAuction` therefore promises only "a highest bid".

=== FILE: bid.dfy ===
/** The persistence-level bid rules (auctions/models.py, `Bid.clean` and
    `Bid.save`). */
module BidRecord {
  import opened Wrappers
  import opened Money
  import opened Rejections
  import opened Ledger

  /** `Bid.clean`: the amount must be positive, above the current price and at
      least 3.00 above it, and only then is the bidder compared with the
      owner. The current price is the recorded one, or the starting price
      when none is recorded. */
  function BidClean(l: Listing, b: Bid): (r: Outcome<Reason>)
    ensures r.Pass? <==> && b.amount > 0
                         && b.amount >= GetCurrentPriceSafe(l) + MODEL_MIN_INCREMENT
                         && b.user != l.owner
    ensures b.amount <= 0 ==> r == Fail(NonPositive)
    ensures 0 < b.amount <= GetCurrentPriceSafe(l) ==> r == Fail(NotAboveCurrent(GetCurrentPriceSafe(l)))
    ensures 0 < b.amount && GetCurrentPriceSafe(l) < b.amount < GetCurrentPriceSafe(l) + MODEL_MIN_INCREMENT
      ==> r == Fail(BelowModelIncrement(GetCurrentPriceSafe(l)))
    ensures 0 < b.amount && GetCurrentPriceSafe(l) + MODEL_MIN_INCREMENT <= b.amount && b.user == l.owner
      ==> r == Fail(OwnListing)
  {
    var current := GetCurrentPriceSafe(l);
    if b.amount <= 0 then Fail(NonPositive)
    else if b.amount <= current then Fail(NotAboveCurrent(current))
    else if b.amount < current + MODEL_MIN_INCREMENT then Fail(BelowModelIncrement(current))
    else if b.user == l.owner then Fail(OwnListing)
    else Pass
  }

  /** `Bid.save`: the bid is validated first and stored only if it passes;
      storing appends it to the listing's bids and touches nothing else. */
  function BidSave(l: Listing, b: Bid): (r: Result<Listing, Reason>)
    ensures r.Success? <==> BidClean(l, b).Pass?
    ensures r.Failure? ==> r.error == BidClean(l, b).error
    ensures r.Success? ==> r.value == l.(bids := l.bids + [b])
  {
    match BidClean(l, b)
    case Fail(reason) => Failure(reason)
    case Pass => Success(l.(bids := l.bids + [b]))
  }

  /** The owner check comes last: an owner's bid that is too low is refused
      for its price, not for its bidder. */
  lemma OwnerLowBidRefusedForPrice(l: Listing, amount: Cents)
    requires 0 < amount < GetCurrentPriceSafe(l) + MODEL_MIN_INCREMENT
    ensures BidClean(l, Bid(l.owner, amount)).Fail?
    ensures BidClean(l, Bid(l.owner, amount)).error != OwnListing
  {
  }
}

=== FILE: forms.dfy ===
/** The field cleaners of the site's forms (auctions/forms.py): the bid
    form's amount rule and the length bounds on listing and category texts.
    Each returns the cleaned value or the message of the validation error. */
module Forms {
  import opened Wrappers
  import opened Money
  import opened Rejections
  import opened Ledger

  /** `BidForm.clean_amount`. Without a listing or a user nothing is checked.
      Otherwise, in order: positive amount, `can_user_bid` (whose message is
      passed on unchanged), above `get_current_price()`, and at least 1.00
      above it. An accepted amount is returned as it came. */
  function CleanAmount(listing: Option<Listing>, user: Option<Principal>, amount: Cents, now: Instant)
    : (r: Result<Cents, string>)
    ensures r.Success? ==> r.value == amount
    ensures listing.None? || user.None? ==> r == Success(amount)
    ensures listing.Some? && user.Some? ==>
      (r.Success? <==> && amount > 0
                       && CanUserBid(listing.value, user.value, now).0
                       && amount >= GetCurrentPrice(listing.value) + FORM_MIN_INCREMENT)
    ensures listing.Some? && user.Some? && amount <= 0 ==> r == Failure(Message(NonPositive))
    ensures listing.Some? && user.Some? && amount > 0 && !CanUserBid(listing.value, user.value, now).0
      ==> r == Failure(CanUserBid(listing.value, user.value, now).1)
    ensures listing.Some? && user.Some? && amount > 0 && CanUserBid(listing.value, user.value, now).0
            && amount <= GetCurrentPrice(listing.value)
      ==> r == Failure(Message(NotAboveCurrent(GetCurrentPrice(listing.value))))
    ensures listing.Some? && user.Some? && amount > 0 && CanUserBid(listing.value, user.value, now).0
            && GetCurrentPrice(listing.value) < amount < GetCurrentPrice(listing.value) + FORM_MIN_INCREMENT
      ==> r == Failure(Message(BelowFormIncrement))
  {
    if listing.None? || user.None? then Success(amount)
    else
      var l := listing.value;
      if amount <= 0 then Failure(Message(NonPositive))
      else
        var (canBid, message) := CanUserBid(l, user.value, now);
        if !canBid then Failure(message)
        else
          var current := GetCurrentPrice(l);
          if amount <= current then Failure(Message(NotAboveCurrent(current)))
          else if amount < current + FORM_MIN_INCREMENT then Failure(Message(BelowFormIncrement))
          else Success(amount)
  }

  /** `ListingForm.clean_title`: 3 to 200 characters, returned unchanged. */
  function CleanTitle(title: string): (r: Result<string, string>)
    ensures r.Success? <==> 3 <= |title| <= 200
    ensures r.Success? ==> r.value == title
    ensures |title| < 3 ==> r == Failure("Title must be at least 3 characters long.")
    ensures |title| > 200 ==> r == Failure("Title cannot exceed 200 characters.")
  {
    if |title| < 3 then Failure("Title must be at least 3 characters long.")
    else if |title| > 200 then Failure("Title cannot exceed 200 characters.")
    else Success(title)
  }

  /** `ListingForm.clean_description`: at most 512 characters, returned unchanged. */
  function CleanDescription(description: string): (r: Result<string, string>)
    ensures r.Success? <==> |description| <= 512
    ensures r.Success? ==> r.value == description
    ensures r.Failure? ==> r.error == "Description cannot exceed 512 characters."
  {
    if |description| > 512 then Failure("Description cannot exceed 512 characters.")
    else Success(description)
  }

  /** `CategoryForm.clean_name`: 3 to 64 characters, returned unchanged. */
  function CleanName(name: string): (r: Result<string, string>)
    ensures r.Success? <==> 3 <= |name| <= 64
    ensures r.Success? ==> r.value == name
    ensures |name| < 3 ==> r == Failure("Category name must be at least 3 characters long.")
    ensures |name| > 64 ==> r == Failure("Category name cannot exceed 64 characters.")
  {
    if |name| < 3 then Failure("Category name must be at least 3 characters long.")
    else if |name| > 64 then Failure("Category name cannot exceed 64 characters.")
    else Success(name)
  }
}

=== FILE: ledger.dfy ===
/** A listing and the bids placed on it (auctions/models.py, classes
    `Listing` and `Bid`). A listing owns its bids: they are held in the
    listing, in the order they were accepted. */
module Ledger {
  import opened Wrappers
  import opened Money
  import opened Rejections

  type UserId = nat

  /** The user behind a request: nobody (anonymous) or a registered member. */
  datatype Principal = Anonymous | Member(id: UserId)

  datatype Bid = Bid(user: UserId, amount: Cents)

  /** Timestamps are abstract instants; only their order matters. */
  type Instant = int

  datatype Listing = Listing(
    startingPrice: Cents,
    currentPrice: Option<Cents>,
    isActive: bool,
    endDate: Option<Instant>,
    owner: UserId,
    winner: Option<UserId>,
    bids: seq<Bid>)

  /** Python truthiness of a nullable decimal: `None` and zero are false. */
  predicate IsSetPrice(p: Option<Cents>) {
    p.Some? && p.value != 0
  }

  /** `Listing.save`: a missing or zero current price is replaced by the
      starting price before the row is written. */
  function Save(l: Listing): (r: Listing)
    ensures r.currentPrice.Some?
    ensures r == l.(currentPrice := r.currentPrice)
    ensures IsSetPrice(l.currentPrice) ==> r == l
    ensures !IsSetPrice(l.currentPrice) ==> r.currentPrice == Some(l.startingPrice)
    ensures r.currentPrice == Some(0) ==> l.startingPrice == 0
  {
    if IsSetPrice(l.currentPrice) then l else l.(currentPrice := Some(l.startingPrice))
  }

  /** `get_current_price_safe`: the current price whenever it is present,
      even when it is zero. Also the price `Bid.clean` and `place_bid`
      compare against. */
  function GetCurrentPriceSafe(l: Listing): (r: Cents)
    ensures l.currentPrice.Some? ==> r == l.currentPrice.value
    ensures l.currentPrice.None? ==> r == l.startingPrice
  {
    l.currentPrice.GetOr(l.startingPrice)
  }

  /** `get_current_price`: `current_price or starting_price`, so a zero
      current price falls back to the starting price as well. */
  function GetCurrentPrice(l: Listing): (r: Cents)
    ensures IsSetPrice(l.currentPrice) ==> r == l.currentPrice.value
    ensures !IsSetPrice(l.currentPrice) ==> r == l.startingPrice
  {
    if IsSetPrice(l.currentPrice) then l.currentPrice.value else l.startingPrice
  }

  /** The two accessors disagree exactly on a recorded price of zero over a
      non-zero starting price. */
  lemma PriceAccessorsAgree(l: Listing)
    ensures GetCurrentPrice(l) != GetCurrentPriceSafe(l)
        <==> l.currentPrice == Some(0) && l.startingPrice != 0
  {
  }

  /** Saving never changes the price `get_current_price` reports; afterwards
      the safe accessor reports that same price; saving twice is saving once. */
  lemma SaveKeepsDisplayedPrice(l: Listing)
    ensures GetCurrentPrice(Save(l)) == GetCurrentPrice(l)
    ensures GetCurrentPriceSafe(Save(l)) == GetCurrentPrice(l)
    ensures Save(Save(l)) == Save(l)
  {
  }

  /** `b` is a bid of `bids` that no other bid of `bids` exceeds. */
  predicate IsHighest(bids: seq<Bid>, b: Bid) {
    b in bids && forall i :: 0 <= i < |bids| ==> bids[i].amount <= b.amount
  }

  /** `get_highest_bid`: the first bid in descending order of amount. Among
      equal amounts the source leaves the choice to the database; the model
      takes the earliest. */
  function HighestBid(bids: seq<Bid>): (r: Option<Bid>)
    ensures r.None? <==> |bids| == 0
    ensures r.Some? ==> IsHighest(bids, r.value)
  {
    if |bids| == 0 then None
    else
      var rest := HighestBid(bids[1..]);
      if rest.None? || bids[0].amount >= rest.value.amount then Some(bids[0])
      else rest
  }

  /** `is_auction_active`: the flag, cut off at the end date when one is set. */
  function IsAuctionActive(l: Listing, now: Instant): (r: bool)
    ensures r <==> l.isActive && (l.endDate.None? || now < l.endDate.value)
  {
    if l.endDate.Some? then l.isActive && now < l.endDate.value else l.isActive
  }

  /** Expiry is permanent: once an auction is no longer active, it stays
      inactive at every later instant. */
  lemma ExpiryIsPermanent(l: Listing, now: Instant, later: Instant)
    requires now <= later && !IsAuctionActive(l, now)
    ensures !IsAuctionActive(l, later)
  {
  }

  /** The first reason `can_user_bid` finds against `user`, tried in the order
      login, ownership, activity. */
  function BidBarrier(l: Listing, user: Principal, now: Instant): (r: Option<Reason>)
    ensures r.None? <==> user.Member? && user.id != l.owner && IsAuctionActive(l, now)
    ensures user.Anonymous? ==> r == Some(NotLoggedIn)
    ensures user.Member? && user.id == l.owner ==> r == Some(OwnListing)
    ensures user.Member? && user.id != l.owner && !IsAuctionActive(l, now) ==> r == Some(AuctionInactive)
  {
    if user.Anonymous? then Some(NotLoggedIn)
    else if user.id == l.owner then Some(OwnListing)
    else if !IsAuctionActive(l, now) then Some(AuctionInactive)
    else None
  }

  /** `can_user_bid`: `(True, "")` when the user may bid, otherwise `False`
      with the message of the first failing check. */
  function CanUserBid(l: Listing, user: Principal, now: Instant): (r: (bool, string))
    ensures r.0 <==> user.Member? && user.id != l.owner && IsAuctionActive(l, now)
    ensures r.0 <==> r.1 == ""
    ensures user.Anonymous? ==> r.1 == Message(NotLoggedIn)
    ensures user.Member? && user.id == l.owner ==> r.1 == Message(OwnListing)
    ensures user.Member? && user.id != l.owner && !IsAuctionActive(l, now)
      ==> r.1 == Message(AuctionInactive)
  {
    match BidBarrier(l, user, now)
    case None => (true, "")
    case Some(reason) => (false, Message(reason))
  }

  /** `Listing.close_auction`: with at least one bid, the bidder of a highest
      bid becomes the winner, the listing is deactivated and saved, and the
      winner is returned. Without bids nothing happens at all: the listing
      stays active and no winner is recorded. */
  function CloseAuction(l: Listing): (r: (Listing, Option<UserId>))
    ensures |l.bids| == 0 ==> r == (l, None)
    ensures |l.bids| > 0 ==> && r.1.Some?
                             && r.0.winner == r.1
                             && !r.0.isActive
                             && exists b :: IsHighest(l.bids, b) && b.user == r.1.value
    ensures r.0 == l.(winner := r.0.winner, isActive := r.0.isActive, currentPrice := r.0.currentPrice)
    ensures GetCurrentPrice(r.0) == GetCurrentPrice(l)
    ensures |l.bids| > 0 ==> r.0 == Save(l).(winner := r.1, isActive := false)
  {
    match HighestBid(l.bids)
    case None => (l, None)
    case Some(b) => (Save(l.(winner := Some(b.user), isActive := false)), Some(b.user))
  }

  /** Closing is idempotent: closing a closed listing picks the same winner
      and changes nothing further. */
  lemma CloseAuctionIdempotent(l: Listing)
    ensures CloseAuction(CloseAuction(l).0) == CloseAuction(l)
  {
  }
}

=== FILE: money.dfy ===
/** Monetary amounts. Every price and bid amount of the auction site is a
    decimal with exactly two fractional digits, so the model keeps them as a
    whole number of cents. Nothing bounds them from below: a starting price
    may be zero or negative, and the bid rules are stated for all of them. */
module Money {
  import opened Wrappers

  type Cents = int

  /** The minimum raise enforced when a bid record is validated: 3.00. */
  const MODEL_MIN_INCREMENT: Cents := 300

  /** The minimum raise enforced by the bid form: 1.00. */
  const FORM_MIN_INCREMENT: Cents := 100

  predicate IsDigit(c: char) {
    '0' <= c <= '9'
  }

  predicate AllDigits(s: string) {
    forall i :: 0 <= i < |s| ==> IsDigit(s[i])
  }

  function DigitChar(d: nat): (c: char)
    requires d < 10
    ensures IsDigit(c) && DigitValue(c) == d
  {
    (('0' as int) + d) as char
  }

  function DigitValue(c: char): (d: nat)
    requires IsDigit(c)
    ensures d < 10
  {
    (c as int) - ('0' as int)
  }

  /** The shortest decimal numeral of `n`. */
  function Numeral(n: nat): (s: string)
    ensures 1 <= |s| && AllDigits(s)
  {
    if n < 10 then [DigitChar(n)] else Numeral(n / 10) + [DigitChar(n % 10)]
  }

  /** The number a string of decimal digits denotes. */
  function NumeralValue(s: string): (n: nat)
    requires AllDigits(s)
  {
    if |s| == 0 then 0 else NumeralValue(s[..|s| - 1]) * 10 + DigitValue(s[|s| - 1])
  }

  lemma {:induction false} NumeralRoundTrip(n: nat)
    ensures NumeralValue(Numeral(n)) == n
  {
    if n >= 10 {
      NumeralRoundTrip(n / 10);
      var s := Numeral(n);
      assert s[..|s| - 1] == Numeral(n / 10);
    }
  }

  /** The two-decimal rendering `format(amount, ".2f")` used when a price is
      written into a rejection message: an optional minus sign, the whole
      units, a point and exactly two digits of cents. */
  function FormatCents(c: Cents): (s: string)
    ensures 4 <= |s| && s[|s| - 3] == '.'
    ensures IsDigit(s[|s| - 2]) && IsDigit(s[|s| - 1])
    ensures (s[0] == '-') <==> c < 0
  {
    var a := if c < 0 then -c else c;
    (if c < 0 then "-" else "") + RenderUnsigned(a)
  }

  /** Reads back an unsigned price from its units, the separator and the two
      digits of cents. */
  function ParseParts(units: string, point: char, d1: char, d2: char): (r: Option<nat>) {
    if point != '.' || !IsDigit(d1) || !IsDigit(d2) || !AllDigits(units) then None
    else Some(NumeralValue(units) * 100 + DigitValue(d1) * 10 + DigitValue(d2))
  }

  /** Reads back an unsigned price written as units, a point and two digits. */
  function ParseUnsigned(s: string): (r: Option<nat>) {
    if |s| < 4 then None
    else ParseParts(s[..|s| - 3], s[|s| - 3], s[|s| - 2], s[|s| - 1])
  }

  /** Reads back a price written by `FormatCents`. */
  function ParseCents(s: string): (r: Option<Cents>) {
    if |s| > 0 && s[0] == '-' then
      match ParseUnsigned(s[1..])
      case None => None
      case Some(a) => Some(-(a as int))
    else
      match ParseUnsigned(s)
      case None => None
      case Some(a) => Some(a)
  }

  lemma ParseUnsignedRendered(units: string, d1: char, d2: char)
    requires 1 <= |units|
    ensures ParseUnsigned(units + "." + [d1, d2]) == ParseParts(units, '.', d1, d2)
  {
    var s := units + "." + [d1, d2];
    var n := |s|;
    assert s[n - 3] == '.' && s[n - 2] == d1 && s[n - 1] == d2;
    assert s[..n - 3] == units;
  }

  /** Whole units, tens of cents and cents put back together. */
  lemma CentsDecomposition(a: nat)
    ensures (a / 100) * 100 + (a % 100 / 10) * 10 + a % 10 == a
  {
    var q, r := a / 100, a % 100;
    assert a == q * 100 + r;
    assert r == (r / 10) * 10 + r % 10;
    assert a == (q * 10 + r / 10) * 10 + r % 10;
    assert a % 10 == r % 10;
  }

  /** `FormatCents` without its sign. */
  function RenderUnsigned(a: nat): (s: string) {
    Numeral(a / 100) + "." + [DigitChar(a % 100 / 10), DigitChar(a % 10)]
  }

  lemma ParseRenderUnsigned(a: nat)
    ensures ParseUnsigned(RenderUnsigned(a)) == Some(a)
  {
    var w, t, u := a / 100, a % 100 / 10, a % 10;
    NumeralRoundTrip(w);
    ParseUnsignedRendered(Numeral(w), DigitChar(t), DigitChar(u));
    assert ParseParts(Numeral(w), '.', DigitChar(t), DigitChar(u)) == Some(w * 100 + t * 10 + u);
    CentsDecomposition(a);
  }

  /** The rendering loses nothing: distinct prices give distinct messages. */
  lemma FormatRoundTrip(c: Cents)
    ensures ParseCents(FormatCents(c)) == Some(c)
  {
    var a := if c < 0 then -c else c;
    var unsigned := RenderUnsigned(a);
    ParseRenderUnsigned(a);
    if c < 0 {
      assert FormatCents(c) == "-" + unsigned;
      assert ("-" + unsigned)[1..] == unsigned;
    } else {
      assert FormatCents(c) == unsigned;
    }
  }

  lemma FormatInjective(c: Cents, d: Cents)
    requires FormatCents(c) == FormatCents(d)
    ensures c == d
  {
    FormatRoundTrip(c);
    FormatRoundTrip(d);
  }
}

=== FILE: properties.dfy ===
/** Properties that hold across operations: the ledger invariant every saved
    listing keeps under bidding and closing, the effect of a run of bid
    attempts, and the places where the bid form's rule and `place_bid`'s rule
    disagree. */
module AuctionProperties {
  import opened Wrappers
  import opened Money
  import opened Rejections
  import opened Ledger
  import opened BidRecord
  import opened Views
  import opened Forms
  import opened TitleValidator

  /** The state of a listing that has been saved and then changed only by
      `place_bid` and `close_auction`: a recorded price no lower than the
      starting price; bids from non-owners with positive amounts, each at
      least 3.00 above every earlier one; the price is the last bid; a
      winner exactly when inactive, and then the last bidder. */
  predicate Sound(l: Listing) {
    && l.currentPrice.Some?
    && l.currentPrice.value >= l.startingPrice
    && (forall i, j :: 0 <= i < j < |l.bids| ==> l.bids[i].amount + MODEL_MIN_INCREMENT <= l.bids[j].amount)
    && (forall i :: 0 <= i < |l.bids| ==> 0 < l.bids[i].amount && l.bids[i].user != l.owner)
    && (|l.bids| > 0 ==> l.currentPrice.value == l.bids[|l.bids| - 1].amount)
    && (l.isActive <==> l.winner.None?)
    && (l.winner.Some? ==> |l.bids| > 0 && l.winner.value == l.bids[|l.bids| - 1].user)
  }

  predicate MarketSound(m: Market) {
    forall id :: id in m ==> Sound(m[id])
  }

  /** A listing as `create_listings` stores it: active, no current price, no
      winner, no bids, then saved. */
  function NewListing(owner: UserId, startingPrice: Cents, endDate: Option<Instant>): (l: Listing)
    ensures Sound(l)
    ensures l.isActive && l.winner.None? && |l.bids| == 0
    ensures GetCurrentPriceSafe(l) == startingPrice && GetCurrentPrice(l) == startingPrice
  {
    Save(Listing(startingPrice, None, true, endDate, owner, None, []))
  }

  /** In a sound listing the current price is the highest bid, and the only
      highest bid is the last one. */
  lemma SoundHighestIsLast(l: Listing)
    requires Sound(l) && |l.bids| > 0
    ensures IsHighest(l.bids, l.bids[|l.bids| - 1])
    ensures GetCurrentPriceSafe(l) == l.bids[|l.bids| - 1].amount
    ensures HighestBid(l.bids) == Some(l.bids[|l.bids| - 1])
  {
  }

  lemma PlaceBidPreservesSound(l: Listing, bidder: UserId, amount: Cents)
    requires Sound(l)
    ensures Sound(PlaceBid(l, bidder, amount).0)
  {
  }

  lemma CloseAuctionPreservesSound(l: Listing)
    requires Sound(l)
    ensures Sound(CloseAuction(l).0)
  {
    if |l.bids| > 0 {
      SoundHighestIsLast(l);
    }
  }

  /** Closing a sound listing with bids makes the last bidder the winner. */
  lemma CloseAwardsLastBidder(l: Listing)
    requires Sound(l) && |l.bids| > 0
    ensures CloseAuction(l).1 == Some(l.bids[|l.bids| - 1].user)
    ensures CloseAuction(l).0.winner == Some(l.bids[|l.bids| - 1].user)
    ensures !CloseAuction(l).0.isActive
  {
    SoundHighestIsLast(l);
  }

  /** Each of the three state-changing requests leaves every listing of a
      sound market sound. */
  lemma PlaceBidRequestKeepsListingsSound(
    m: Market, id: ListingId, requester: Principal, amount: Option<Cents>, k: ListingId)
    requires MarketSound(m)
    requires k in PlaceBidRequest(m, id, requester, amount).0
    ensures Sound(PlaceBidRequest(m, id, requester, amount).0[k])
  {
    if requester.Member? && id in m && amount.Some? {
      PlaceBidPreservesSound(m[id], requester.id, amount.value);
    }
  }

  lemma CloseAuctionRequestKeepsListingsSound(m: Market, id: ListingId, requester: Principal, k: ListingId)
    requires MarketSound(m)
    requires k in CloseAuctionRequest(m, id, requester).0
    ensures Sound(CloseAuctionRequest(m, id, requester).0[k])
  {
    if requester.Member? && id in m {
      CloseAuctionPreservesSound(m[id]);
    }
  }

  lemma DeleteListingRequestKeepsListingsSound(m: Market, id: ListingId, requester: Principal, k: ListingId)
    requires MarketSound(m)
    requires k in DeleteListingRequest(m, id, requester).0
    ensures Sound(DeleteListingRequest(m, id, requester).0[k])
  {
  }

  // ---- runs of bid attempts ----

  datatype Attempt = Attempt(bidder: UserId, amount: Cents)

  /** The listing after `place_bid` has handled each attempt in turn. */
  function RunBids(l: Listing, attempts: seq<Attempt>): (r: Listing)
    decreases |attempts|
  {
    if |attempts| == 0 then l
    else RunBids(PlaceBid(l, attempts[0].bidder, attempts[0].amount).0, attempts[1..])
  }

  /** The number of attempts in a run that `place_bid` accepts. */
  function Accepted(l: Listing, attempts: seq<Attempt>): (n: nat)
    decreases |attempts|
  {
    if |attempts| == 0 then 0
    else
      var (l', outcome) := PlaceBid(l, attempts[0].bidder, attempts[0].amount);
      (if outcome.Placed? then 1 else 0) + Accepted(l', attempts[1..])
  }

  /** Along any run, bids are only appended, one per accepted attempt, the
      price rises by at least 3.00 per accepted attempt, and a sound listing
      stays sound. */
  lemma {:induction false} RunBidsAppendsAndRaises(l: Listing, attempts: seq<Attempt>)
    ensures var l' := RunBids(l, attempts);
            && |l'.bids| == |l.bids| + Accepted(l, attempts)
            && l'.bids[..|l.bids|] == l.bids
            && GetCurrentPriceSafe(l') >= GetCurrentPriceSafe(l) + MODEL_MIN_INCREMENT * Accepted(l, attempts)
            && (Sound(l) ==> Sound(l'))
    decreases |attempts|
  {
    if |attempts| > 0 {
      var (l1, outcome) := PlaceBid(l, attempts[0].bidder, attempts[0].amount);
      if Sound(l) {
        PlaceBidPreservesSound(l, attempts[0].bidder, attempts[0].amount);
      }
      RunBidsAppendsAndRaises(l1, attempts[1..]);
      var l' := RunBids(l1, attempts[1..]);
      assert l'.bids[..|l1.bids|] == l1.bids;
      assert l1.bids[..|l.bids|] == l.bids;
      assert l'.bids[..|l.bids|] == l'.bids[..|l1.bids|][..|l.bids|];
    } else {
      assert l.bids[..|l.bids|] == l.bids;
    }
  }

  /** The worked example: a listing at 100.00 takes 150.00, refuses 120.00
      for its price and 150.50 for the 3.00 increment, takes 153.00, refuses
      its owner at any amount, and on closing goes to the 153.00 bidder. */
  lemma BiddingScenario()
    ensures var l0 := NewListing(1, 10000, None);
            var (l1, o1) := PlaceBid(l0, 2, 15000);
            && o1 == Placed && GetCurrentPriceSafe(l1) == 15000
            && PlaceBid(l1, 3, 12000) == (l1, Refused(NotAboveCurrent(15000)))
            && PlaceBid(l1, 3, 15050) == (l1, Refused(BelowModelIncrement(15000)))
            && PlaceBid(l1, 1, 99900) == (l1, Refused(OwnListing))
            && (forall a: Cents :: PlaceBid(l1, 1, a).0 == l1 && PlaceBid(l1, 1, a).1.Refused?)
            && var (l2, o2) := PlaceBid(l1, 3, 15300);
               && o2 == Placed && GetCurrentPriceSafe(l2) == 15300
               && CloseAuction(l2).1 == Some(3)
  {
    var l0 := NewListing(1, 10000, None);
    var l1 := PlaceBid(l0, 2, 15000).0;
    var l2 := PlaceBid(l1, 3, 15300).0;
    assert l2.bids == [Bid(2, 15000), Bid(3, 15300)];
    CloseAwardsLastBidder(l2) by {
      PlaceBidPreservesSound(l0, 2, 15000);
      PlaceBidPreservesSound(l1, 3, 15300);
    }
  }

  // ---- where the bid form's rule and `place_bid`'s rule disagree ----
  // `BidForm` is imported by the views but never built, so no request runs
  // `clean_amount`; these lemmas compare the two rules, not two live routes.

  /** `place_bid` looks only at the `is_active` flag: a listing past its end
      date still takes a valid bid there, while the bid form refuses it as
      no longer active. */
  lemma ExpiredAuctionStillTakesBids(l: Listing, bidder: UserId, amount: Cents, now: Instant)
    requires l.isActive && l.endDate.Some? && l.endDate.value <= now
    requires bidder != l.owner
    requires amount > 0 && amount >= GetCurrentPriceSafe(l) + MODEL_MIN_INCREMENT
    ensures !IsAuctionActive(l, now)
    ensures PlaceBid(l, bidder, amount).1 == Placed
    ensures CleanAmount(Some(l), Some(Member(bidder)), amount, now) == Failure(Message(AuctionInactive))
  {
  }

  /** The form asks for a 1.00 raise, the bid record for 3.00: a raise in
      between passes the form and is refused by `place_bid`. */
  lemma FormIncrementIsWeaker(l: Listing, bidder: UserId, amount: Cents, now: Instant)
    requires IsSetPrice(l.currentPrice) && IsAuctionActive(l, now) && bidder != l.owner
    requires amount > 0
    requires GetCurrentPrice(l) + FORM_MIN_INCREMENT <= amount < GetCurrentPrice(l) + MODEL_MIN_INCREMENT
    ensures CleanAmount(Some(l), Some(Member(bidder)), amount, now) == Success(amount)
    ensures PlaceBid(l, bidder, amount) == (l, Refused(BelowModelIncrement(GetCurrentPriceSafe(l))))
  {
  }

  /** With a recorded price of zero the form measures against the starting
      price while `place_bid` measures against zero. `Listing.save` never
      leaves a zero over a non-zero starting price (see `Ledger.Save`), so
      only a row written without `save()` reaches this state. */
  lemma ZeroPriceSplitsThePaths(l: Listing, bidder: UserId, amount: Cents, now: Instant)
    requires l.currentPrice == Some(0) && l.isActive && l.endDate.None? && bidder != l.owner
    requires MODEL_MIN_INCREMENT <= amount <= l.startingPrice
    ensures PlaceBid(l, bidder, amount).1 == Placed
    ensures CleanAmount(Some(l), Some(Member(bidder)), amount, now)
         == Failure(Message(NotAboveCurrent(l.startingPrice)))
  {
  }

  /** Every amount the form accepts for a listing whose two accessors agree
      is at least 1.00 above the price `Bid.clean` sees. */
  lemma FormAcceptanceBound(l: Listing, user: Principal, amount: Cents, now: Instant)
    requires CleanAmount(Some(l), Some(user), amount, now).Success?
    ensures amount >= GetCurrentPrice(l) + FORM_MIN_INCREMENT
    ensures !(l.currentPrice == Some(0) && l.startingPrice != 0)
      ==> amount >= GetCurrentPriceSafe(l) + FORM_MIN_INCREMENT
  {
    PriceAccessorsAgree(l);
  }

  /** On the length bounds the validator and `ListingForm.clean_title` agree
      word for word: a stripped title of the wrong length is refused by both
      with the same message. */
  lemma LengthMessagesAgree(t: string)
    requires |t| < 3 || |t| > 200
    ensures CheckStripped(t).Failure? && CleanTitle(t).Failure?
    ensures ErrorMessage(CheckStripped(t).error) == CleanTitle(t).error
  {
  }

  /** A title the model validator accepts also passes the form's own length
      check. */
  lemma ValidatedTitleFitsForm(value: string)
    ensures ValidateListingTitle(value).Success?
        ==> CleanTitle(ValidateListingTitle(value).value) == Success(ValidateListingTitle(value).value)
  {
  }
}

=== FILE: rejections.dfy ===
/** Why a bid, a close or a listing text was refused, with the exact text the
    auction site shows for it. */
module Rejections {
  import opened Money

  datatype Reason =
    | NotLoggedIn
    | NonPositive
    | OwnListing
    | AuctionInactive
    | NotAboveCurrent(price: Cents)
    | BelowModelIncrement(price: Cents)
    | BelowFormIncrement
    | InvalidAmount

  function Message(r: Reason): (m: string)
    ensures m != ""
  {
    match r
    case NotLoggedIn => "You must be logged in to bid."
    case NonPositive => "Bid amount must be greater than 0."
    case OwnListing => "You cannot bid on your own listing."
    case AuctionInactive => "This auction is no longer active."
    case NotAboveCurrent(p) =>
      "Bid must be higher than the current price of $" + FormatCents(p) + "."
    case BelowModelIncrement(p) =>
      "Bid must be at least $" + FormatCents(MODEL_MIN_INCREMENT)
      + " higher than the current price of $" + FormatCents(p) + "."
    case BelowFormIncrement =>
      "Bid must be at least $" + FormatCents(FORM_MIN_INCREMENT) + " higher than the current price."
    case InvalidAmount => "Invalid bid amount. Please enter a valid number."
  }
}

=== FILE: validators.dfy ===
/** `validate_listing_title` (auctions/validators.py): the title is stripped
    of surrounding whitespace and then checked, in order, for length, for
    characters outside the allowed class, for shouting, for repeated
    characters and for web addresses. The first failing check decides the
    error; an accepted title is returned stripped. */
module TitleValidator {
  import opened Wrappers

  /** Whitespace as Python's `str.isspace` and the `\s` of a str pattern see it. */
  predicate IsSpace(c: char) {
    || c == ' '
    || '\t' <= c <= '\r'
    || '\U{1C}' <= c <= '\U{1F}'
    || c == '\U{85}' || c == '\U{A0}' || c == '\U{1680}'
    || '\U{2000}' <= c <= '\U{200A}'
    || c == '\U{2028}' || c == '\U{2029}' || c == '\U{202F}' || c == '\U{205F}' || c == '\U{3000}'
  }

  predicate IsUpper(c: char) {
    'A' <= c <= 'Z'
  }

  /** A character of the regular-expression class `\w`, taken over ASCII:
      letters, digits and underscore. */
  predicate IsWordChar(c: char) {
    IsUpper(c) || 'a' <= c <= 'z' || '0' <= c <= '9' || c == '_'
  }

  /** The punctuation the title pattern admits besides `\w` and `\s`. */
  const PUNCTUATION: string := "-.,!?'\"@#$%&*()+=:;/\\"

  predicate IsAllowed(c: char) {
    IsWordChar(c) || IsSpace(c) || c in PUNCTUATION
  }

  predicate AllAllowed(s: string) {
    forall i :: 0 <= i < |s| ==> IsAllowed(s[i])
  }

  predicate AllSpace(s: string) {
    forall i :: 0 <= i < |s| ==> IsSpace(s[i])
  }

  /** No whitespace at either end. */
  predicate IsTrimmed(s: string) {
    |s| == 0 || (!IsSpace(s[0]) && !IsSpace(s[|s| - 1]))
  }

  function TrimLeft(s: string): (r: string)
    ensures |r| <= |s| && r == s[|s| - |r|..]
    ensures AllSpace(s[..|s| - |r|])
    ensures |r| == 0 || !IsSpace(r[0])
  {
    if |s| > 0 && IsSpace(s[0]) then TrimLeft(s[1..]) else s
  }

  function TrimRight(s: string): (r: string)
    ensures |r| <= |s| && r == s[..|r|]
    ensures AllSpace(s[|r|..])
    ensures |r| == 0 || !IsSpace(r[|r| - 1])
  {
    if |s| > 0 && IsSpace(s[|s| - 1]) then TrimRight(s[..|s| - 1]) else s
  }

  /** `str.strip()`: the value without its leading and trailing whitespace. */
  function Strip(s: string): (r: string)
    ensures IsTrimmed(r)
    ensures |r| <= |s|
  {
    TrimRight(TrimLeft(s))
  }

  /** Stripping removes exactly the whitespace border: whatever whitespace
      surrounds a trimmed text, stripping gives back that text. */
  lemma {:induction false} StripRemovesBorder(a: string, t: string, b: string)
    requires AllSpace(a) && AllSpace(b) && IsTrimmed(t)
    ensures Strip(a + t + b) == t
  {
    if |t| == 0 {
      assert a + t + b == (a + b) + [];
      TrimLeftSpaces(a + b, []);
    } else {
      assert a + t + b == a + (t + b);
      TrimLeftSpaces(a, t + b);
      TrimRightSpaces(t, b);
    }
  }

  lemma {:induction false} TrimLeftSpaces(a: string, u: string)
    requires AllSpace(a)
    requires |u| == 0 || !IsSpace(u[0])
    ensures TrimLeft(a + u) == u
    decreases |a|
  {
    if |a| > 0 {
      assert (a + u)[1..] == a[1..] + u;
      TrimLeftSpaces(a[1..], u);
    } else {
      assert a + u == u;
    }
  }

  lemma {:induction false} TrimRightSpaces(t: string, b: string)
    requires AllSpace(b)
    requires |t| == 0 || !IsSpace(t[|t| - 1])
    ensures TrimRight(t + b) == t
    decreases |b|
  {
    if |b| > 0 {
      assert (t + b)[..|t + b| - 1] == t + b[..|b| - 1];
      TrimRightSpaces(t, b[..|b| - 1]);
    } else {
      assert t + b == t;
    }
  }

  /** Stripping twice is stripping once. */
  lemma StripIdempotent(s: string)
    ensures Strip(Strip(s)) == Strip(s)
  {
  }

  // ---- `\b[A-Z]{3,}\b`, counted with `re.findall` ----

  predicate AllUpperIn(s: string, i: nat, j: nat)
    requires i <= j <= |s|
  {
    forall k :: i <= k < j ==> IsUpper(s[k])
  }

  /** A word boundary before position `i`, where `s[i]` is a word character. */
  predicate BoundaryBefore(s: string, i: nat)
    requires 0 < i <= |s| || i == 0
  {
    i == 0 || !IsWordChar(s[i - 1])
  }

  /** A word boundary after position `j - 1`, where `s[j - 1]` is a word character. */
  predicate BoundaryAt(s: string, j: nat)
    requires j <= |s|
  {
    j == |s| || !IsWordChar(s[j])
  }

  /** The pattern matches at `i`: a boundary, three or more capitals, a boundary. */
  predicate ShoutAt(s: string, i: nat)
    requires i <= |s|
  {
    && i < |s|
    && BoundaryBefore(s, i)
    && exists j :: i + 3 <= j <= |s| && AllUpperIn(s, i, j) && BoundaryAt(s, j)
  }

  /** The positions at or after `i` where the pattern matches. */
  function ShoutStarts(s: string, i: nat): (starts: set<nat>)
    requires i <= |s|
  {
    set k: nat | i <= k < |s| && ShoutAt(s, k)
  }

  /** The end of the run of capitals that starts at `i`. */
  function UpperRunEnd(s: string, i: nat): (j: nat)
    requires i <= |s|
    ensures i <= j <= |s|
    ensures AllUpperIn(s, i, j)
    ensures j == |s| || !IsUpper(s[j])
    decreases |s| - i
  {
    if i < |s| && IsUpper(s[i]) then UpperRunEnd(s, i + 1) else i
  }

  /** `re.findall` from position `i`: try a match at `i`; after a match resume
      where it ended, otherwise one position later. A capital run can only
      be followed by a boundary at its end, so backtracking inside the run
      never finds a shorter match. */
  function ShoutsFrom(s: string, i: nat): (n: nat)
    requires i <= |s|
    decreases |s| - i
  {
    if i == |s| then 0
    else
      var j := UpperRunEnd(s, i);
      if BoundaryBefore(s, i) && i + 3 <= j && BoundaryAt(s, j) then 1 + ShoutsFrom(s, j)
      else ShoutsFrom(s, i + 1)
  }

  /** The number of shouted words in a title. */
  function ShoutCount(s: string): (n: nat) {
    ShoutsFrom(s, 0)
  }

  lemma ShoutAtIsRunEnd(s: string, i: nat)
    requires i < |s|
    ensures ShoutAt(s, i) <==> var j := UpperRunEnd(s, i);
                               BoundaryBefore(s, i) && i + 3 <= j && BoundaryAt(s, j)
  {
  }

  /** Inside a run of capitals no match can start. */
  lemma NoShoutInsideRun(s: string, i: nat, k: nat)
    requires i <= |s| && i < k < UpperRunEnd(s, i)
    ensures !ShoutAt(s, k)
  {
  }

  /** The scan counts exactly the positions where the pattern matches. */
  lemma {:induction false} ShoutsFromCountsMatches(s: string, i: nat)
    requires i <= |s|
    ensures ShoutsFrom(s, i) == |ShoutStarts(s, i)|
    decreases |s| - i
  {
    if i == |s| {
      assert ShoutStarts(s, i) == {};
    } else {
      var j := UpperRunEnd(s, i);
      ShoutAtIsRunEnd(s, i);
      if ShoutAt(s, i) {
        ShoutsFromCountsMatches(s, j);
        forall k | k in ShoutStarts(s, i) && k != i
          ensures k in ShoutStarts(s, j)
        {
          if k < j {
            NoShoutInsideRun(s, i, k);
          }
        }
        assert ShoutStarts(s, i) == {i} + ShoutStarts(s, j);
        assert i !in ShoutStarts(s, j);
      } else {
        ShoutsFromCountsMatches(s, i + 1);
        assert ShoutStarts(s, i) == ShoutStarts(s, i + 1);
      }
    }
  }

  lemma ShoutCountCountsMatches(s: string)
    ensures ShoutCount(s) == |ShoutStarts(s, 0)|
  {
    ShoutsFromCountsMatches(s, 0);
  }

  // ---- `(.)\1{3,}` ----

  /** Four equal characters from `i` on; `.` does not match a newline. */
  predicate RepeatAt(s: string, i: nat)
    requires i + 3 < |s|
  {
    s[i] != '\n' && s[i + 1] == s[i] && s[i + 2] == s[i] && s[i + 3] == s[i]
  }

  predicate HasRepeat(s: string) {
    exists i: nat :: i + 3 < |s| && RepeatAt(s, i)
  }

  // ---- `https?://|www\.|\.(com|org|net)`, ignoring case ----

  const URL_MARKERS: seq<string> := ["http://", "https://", "www.", ".com", ".org", ".net"]

  function ToLower(c: char): (d: char) {
    if IsUpper(c) then (c as int + 32) as char else c
  }

  /** `p` (written in lower case) occurs at `i`, ignoring the case of `s`. */
  predicate OccursAt(s: string, i: nat, p: string) {
    i + |p| <= |s| && forall k :: 0 <= k < |p| ==> ToLower(s[i + k]) == p[k]
  }

  predicate HasUrl(s: string) {
    exists p, i: nat :: p in URL_MARKERS && i <= |s| && OccursAt(s, i, p)
  }

  // ---- the validator ----

  datatype TitleError =
    | TooShort
    | TooLong
    | DisallowedCharacters
    | ExcessiveCapitals
    | RepetitiveCharacters
    | LooksLikeUrl

  /** The text of the `ValidationError` each check raises. */
  function ErrorMessage(e: TitleError): (m: string)
    ensures m != ""
  {
    match e
    case TooShort => "Title must be at least 3 characters long."
    case TooLong => "Title cannot exceed 200 characters."
    case DisallowedCharacters => "Title can only contain letters, numbers, spaces, and common punctuation marks."
    case ExcessiveCapitals => "Please avoid excessive capitalization in the title."
    case RepetitiveCharacters => "Title contains repetitive characters."
    case LooksLikeUrl => "Title should not contain URLs or website addresses."
  }

  /** The checks of the validator on an already stripped title, in source
      order; the first that fails decides the error. */
  function CheckStripped(t: string): (r: Result<string, TitleError>)
    ensures r.Success? ==> r.value == t
    ensures r.Success? <==> && 3 <= |t| <= 200
                            && AllAllowed(t)
                            && ShoutCount(t) <= 2
                            && !HasRepeat(t)
                            && !HasUrl(t)
    ensures |t| < 3 ==> r == Failure(TooShort)
    ensures |t| > 200 ==> r == Failure(TooLong)
    ensures 3 <= |t| <= 200 && !AllAllowed(t) ==> r == Failure(DisallowedCharacters)
    ensures 3 <= |t| <= 200 && AllAllowed(t) && ShoutCount(t) > 2 ==> r == Failure(ExcessiveCapitals)
    ensures 3 <= |t| <= 200 && AllAllowed(t) && ShoutCount(t) <= 2 && HasRepeat(t)
      ==> r == Failure(RepetitiveCharacters)
    ensures 3 <= |t| <= 200 && AllAllowed(t) && ShoutCount(t) <= 2 && !HasRepeat(t) && HasUrl(t)
      ==> r == Failure(LooksLikeUrl)
  {
    if |t| < 3 then Failure(TooShort)
    else if |t| > 200 then Failure(TooLong)
    else if !AllAllowed(t) then Failure(DisallowedCharacters)
    else if ShoutCount(t) > 2 then Failure(ExcessiveCapitals)
    else if HasRepeat(t) then Failure(RepetitiveCharacters)
    else if HasUrl(t) then Failure(LooksLikeUrl)
    else Success(t)
  }

  /** `validate_listing_title`: strip, then check. */
  function ValidateListingTitle(value: string): (r: Result<string, TitleError>)
    ensures r.Success? ==> r.value == Strip(value) && IsTrimmed(r.value)
    ensures r.Success? <==> var t := Strip(value);
                            && 3 <= |t| <= 200
                            && AllAllowed(t)
                            && ShoutCount(t) <= 2
                            && !HasRepeat(t)
                            && !HasUrl(t)
  {
    CheckStripped(Strip(value))
  }

  /** An accepted title is a fixed point: validating it again accepts it and
      returns it unchanged. */
  lemma RevalidationAccepts(value: string)
    ensures ValidateListingTitle(value).Success?
        ==> ValidateListingTitle(ValidateListingTitle(value).value) == ValidateListingTitle(value)
  {
    StripIdempotent(value);
  }
}

=== FILE: views.dfy ===
/** The decision logic of the three request handlers that change auction
    state (auctions/views.py: `place_bid`, `close_auction`, `delete_listing`).
    Rendering, flash messages and redirects are left out; each handler
    returns the new state and what the user is told. */
module Views {
  import opened Wrappers
  import opened Money
  import opened Rejections
  import opened Ledger
  import opened BidRecord

  type ListingId = nat

  /** All listings by id. A listing carries its bids, so removing a listing
      removes its bids with it. */
  type Market = map<ListingId, Listing>

  /** What a bid attempt on one listing comes to. */
  datatype BidOutcome = Placed | Refused(reason: Reason)

  /** What a request handler answers. */
  datatype Response =
    | LoginRedirect
    | NotFound
    | BidResponse(outcome: BidOutcome)
    | Forbidden
    | Closed(winner: Option<UserId>)
    | Deleted

  /** The body of `place_bid` once the listing is loaded and the amount is
      parsed: its own checks (amount, owner, the `is_active` flag only, price),
      then `Bid.clean` through `Bid.save`, then the new price is recorded and
      the listing saved. The end date is never looked at. */
  function PlaceBid(l: Listing, bidder: UserId, amount: Cents): (r: (Listing, BidOutcome))
    ensures amount <= 0 ==> r == (l, Refused(NonPositive))
    ensures 0 < amount && bidder == l.owner ==> r == (l, Refused(OwnListing))
    ensures 0 < amount && bidder != l.owner && !l.isActive ==> r == (l, Refused(AuctionInactive))
    ensures 0 < amount && bidder != l.owner && l.isActive && amount <= GetCurrentPriceSafe(l)
      ==> r == (l, Refused(NotAboveCurrent(GetCurrentPriceSafe(l))))
    ensures && 0 < amount && bidder != l.owner && l.isActive
            && GetCurrentPriceSafe(l) < amount < GetCurrentPriceSafe(l) + MODEL_MIN_INCREMENT
      ==> r == (l, Refused(BelowModelIncrement(GetCurrentPriceSafe(l))))
    ensures r.1.Placed? <==> && 0 < amount
                             && bidder != l.owner
                             && l.isActive
                             && amount >= GetCurrentPriceSafe(l) + MODEL_MIN_INCREMENT
    ensures r.1.Refused? ==> r.0 == l
    ensures r.1.Placed? ==> && r.0.bids == l.bids + [Bid(bidder, amount)]
                            && r.0.currentPrice == Some(amount)
                            && r.0 == l.(bids := r.0.bids, currentPrice := r.0.currentPrice)
    ensures r.1.Placed? ==> GetCurrentPriceSafe(r.0) >= GetCurrentPriceSafe(l) + MODEL_MIN_INCREMENT
  {
    var current := GetCurrentPriceSafe(l);
    if amount <= 0 then (l, Refused(NonPositive))
    else if bidder == l.owner then (l, Refused(OwnListing))
    else if !l.isActive then (l, Refused(AuctionInactive))
    else if amount <= current then (l, Refused(NotAboveCurrent(current)))
    else
      match BidSave(l, Bid(bidder, amount))
      case Failure(reason) => (l, Refused(reason))
      case Success(withBid) => (Save(withBid.(currentPrice := Some(amount))), Placed)
  }

  /** Once `place_bid`'s own checks pass, the only thing `Bid.clean` can still
      object to is the 3.00 increment. */
  lemma PlaceBidRecordCheckIsIncrementOnly(l: Listing, bidder: UserId, amount: Cents)
    requires 0 < amount && bidder != l.owner && l.isActive && amount > GetCurrentPriceSafe(l)
    ensures BidClean(l, Bid(bidder, amount)).Fail?
        ==> BidClean(l, Bid(bidder, amount)).error == BelowModelIncrement(GetCurrentPriceSafe(l))
  {
  }

  /** `place_bid` as a request: login is required, an unknown listing is a
      404, an amount that does not parse is refused, and otherwise the bid is
      tried on that listing alone. `amount` is `None` for an unparseable
      input. */
  function PlaceBidRequest(m: Market, id: ListingId, requester: Principal, amount: Option<Cents>)
    : (r: (Market, Response))
    ensures requester.Anonymous? ==> r == (m, LoginRedirect)
    ensures requester.Member? && id !in m ==> r == (m, NotFound)
    ensures requester.Member? && id in m && amount.None? ==> r == (m, BidResponse(Refused(InvalidAmount)))
    ensures requester.Member? && id in m && amount.Some?
      ==> r.1 == BidResponse(PlaceBid(m[id], requester.id, amount.value).1)
    ensures r.1 != BidResponse(Placed) ==> r.0 == m
    ensures r.1 == BidResponse(Placed)
      ==> && requester.Member? && id in m && amount.Some?
          && r.0 == m[id := PlaceBid(m[id], requester.id, amount.value).0]
    ensures r.0.Keys == m.Keys
    ensures forall k :: k in m && k != id ==> r.0[k] == m[k]
  {
    if requester.Anonymous? then (m, LoginRedirect)
    else if id !in m then (m, NotFound)
    else if amount.None? then (m, BidResponse(Refused(InvalidAmount)))
    else
      var (l', outcome) := PlaceBid(m[id], requester.id, amount.value);
      match outcome
      case Placed => (m[id := l'], BidResponse(Placed))
      case Refused(_) => (m, BidResponse(outcome))
  }

  /** `close_auction` as a request: only the owner may close; the model's
      `close_auction` then decides the winner. */
  function CloseAuctionRequest(m: Market, id: ListingId, requester: Principal): (r: (Market, Response))
    ensures requester.Anonymous? ==> r == (m, LoginRedirect)
    ensures requester.Member? && id !in m ==> r == (m, NotFound)
    ensures requester.Member? && id in m && requester.id != m[id].owner ==> r == (m, Forbidden)
    ensures requester.Member? && id in m && requester.id == m[id].owner
      ==> r.1.Closed? && r.0 == m[id := CloseAuction(m[id]).0] && r.1.winner == CloseAuction(m[id]).1
    ensures r.0.Keys == m.Keys
    ensures forall k :: k in m && k != id ==> r.0[k] == m[k]
  {
    if requester.Anonymous? then (m, LoginRedirect)
    else if id !in m then (m, NotFound)
    else if requester.id != m[id].owner then (m, Forbidden)
    else
      var (l', winner) := CloseAuction(m[id]);
      (m[id := l'], Closed(winner))
  }

  /** `delete_listing`: the owner removes the listing and all its bids; anyone
      else changes nothing. */
  function DeleteListingRequest(m: Market, id: ListingId, requester: Principal): (r: (Market, Response))
    ensures r.1 == Deleted <==> requester.Member? && id in m && requester.id == m[id].owner
    ensures r.1 == Deleted ==> r.0.Keys == m.Keys - {id}
    ensures r.1 != Deleted ==> r.0 == m
    ensures forall k :: k in m && k != id ==> k in r.0 && r.0[k] == m[k]
    ensures requester.Anonymous? ==> r.1 == LoginRedirect
    ensures requester.Member? && id !in m ==> r.1 == NotFound
    ensures requester.Member? && id in m && requester.id != m[id].owner ==> r.1 == Forbidden
  {
    if requester.Anonymous? then (m, LoginRedirect)
    else if id !in m then (m, NotFound)
    else if requester.id != m[id].owner then (m, Forbidden)
    else (m - {id}, Deleted)
  }
}

=== FILE: wrappers.dfy ===
/** Failure-carrying datatypes shared by the model: an optional value, a value
    or an error, and a pass/fail verdict with a reason. */
module Wrappers {

  datatype Option<+T> = None | Some(value: T) {

    /** The wrapped value, or `default` when there is none. */
    function GetOr(default: T): (r: T) {
      match this
      case Some(v) => v
      case None => default
    }
  }

  /** A cleaned value or the message of the validation error that rejected it. */
  datatype Result<+R, +E> = Success(value: R) | Failure(error: E)

  /** The verdict of a check that produces no value. */
  datatype Outcome<+E> = Pass | Fail(error: E)
}
